=== FILE: README.md ===
# Booking rules of the consultation-booking web app, in Dafny

This project models the booking rules of a small web application where a
bank's customers book consultation slots at a branch. It is written as pure
functions over an abstract `bookings` table (`seq<Booking>`) and proves
properties of them. It models four pieces:

- **`/api/booking` POST and DELETE** (`booking_route.dfy`, built on
  `validation.dfy`, `bookings.dfy`, `clock.dfy` and `text.dfy`).
  - POST is dispatched on the shape of the body. A body with exactly the three
    truthy keys `date`, `time` and `location` is an availability question.
    Any other body is a submission.
  - A submission goes through seven short-circuiting checks, in order: all six
    fields present, phone `^[0-9]{10,15}$`, positive age, valid date, not
    before today, weekday, and time between `"08:00"` and `"15:00"` compared
    as strings.
  - A submission that passes is then checked against the one-hour buffer. A
    time conflicts when it is less than 60 minutes (hours*60 + minutes) from
    any booking on the same date at the same branch. A conflict gives 409;
    otherwise the booking is inserted and 201 is returned.
  - DELETE looks up the id first (404 when it is missing) and then removes
    the rows with that id.
  - The central invariant `Bookings.Separated` says that any two bookings on
    the same date at the same branch are at least 60 minutes apart. Every
    POST and every DELETE preserves it.
- **The exact-match availability endpoint** (`exact_availability.dfy`). This
  is the endpoint the booking page actually asks before it submits. It calls
  a slot taken only when a booking has the same date and the identical time
  string, and it ignores the branch. The model proves the gap in both
  directions: the buffer catches what this endpoint misses, and this endpoint
  refuses what the buffer allows.
- **The booking page's form rules** (`booking_form.dfy`). `validateForm`
  checks every field independently and keeps one message per failing field
  (the field's first failing check). `handleChange` edits one field and blanks
  that field's message. The model proves how this relates to the server's
  chain: when the browser and the server agree on whether the date is a
  weekend, and `minDate` is the server's today, the two agree exactly, except
  that the page never checks the branch or whether the date parses.
- **The review counter** (`reviews.dfy`). `GET /api/reviews` folds over the
  classification column. It counts `positif`, `netral` and `negatif` without
  regard to case and ignores every other label.

The runtime supplies several inputs, and the model takes each of them as a
parameter:

- today's UTC date;
- how `new Date(date)` reads a date (`Calendar`: invalid, or a weekday 0–6);
- the id the database assigns, and the handler's clock reading stored as `created_at`;
- whether a database query or write fails (`Backend`).

Messages are modelled as kinds (`Rejection`, `FormError`), not as their
Indonesian text.

A stored time that is malformed becomes NaN under `split(':').map(Number)`,
and `Math.abs(NaN) < 60` is false, so such a row never conflicts with
anything. `Clock.Minutes` returns `None` for it, and
`Clock.NaNNeverConflicts` states the consequence.

## Model

| member | source | states |
|---|---|---|
| `BookingRoute.Post` | app/api/booking/route.ts:26-203 | POST either leaves the table as it was or appends exactly the booking it reports as created; an availability answer is only ever given to a 3-key availability body |
| `BookingRoute.AvailabilityModeIsReadOnly` | app/api/booking/route.ts:31-65 | availability mode never writes; on a query error it answers 500, otherwise 200 with `available` true iff every same-date, same-branch booking is at least 60 minutes away (times that do not convert never conflict) |
| `BookingRoute.SubmissionNeverAnswersAvailability` | app/api/booking/route.ts:31-69 | a body that is not exactly three truthy `date`/`time`/`location` keys is treated as a submission and never gets an availability answer |
| `BookingRoute.SubmissionRejectedByFirstFailingCheck` | app/api/booking/route.ts:71-128 | a submission is rejected with reason `c` iff check `c` fails and every earlier check in the fixed order passes; rejection is status 400 and leaves the table unchanged |
| `BookingRoute.AcceptedBookingIsValid` | app/api/booking/route.ts:69-194 | a created booking returns 201, is the one row appended, carries the submitted fields with the given id and timestamp, has a 10–15 digit phone, a positive age, a valid weekday date not before today, a time within "08:00".."15:00" as strings, and keeps the buffer |
| `BookingRoute.ConflictRejectsWithoutWriting` | app/api/booking/route.ts:130-165 | a validated submission gets 409 iff the query succeeds and some same-date, same-branch booking is less than 60 minutes away; the table is then unchanged |
| `BookingRoute.ValidFreeSubmissionCreated` | app/api/booking/route.ts:130-194 | a valid submission whose slot keeps the buffer, with a working database, is inserted with 201 as the one appended row carrying the submitted fields, the database's id and the handler's timestamp |
| `BookingRoute.SubmissionFailsOnlyOnBackendError` | app/api/booking/route.ts:139-186 | a submission gets 500 exactly when it passes validation and then the buffer query fails, or the slot is free and the insert fails; the table is then unchanged |
| `BookingRoute.PostPreservesSeparation` | app/api/booking/route.ts:150-194 | if every same-date, same-branch pair of bookings was 60 minutes apart before a POST, it still is after |
| `BookingRoute.PostPreservesUniqueIds` | app/api/booking/route.ts:168-179 | with a fresh database id, inserting keeps ids unique |
| `BookingRoute.SecondBookingWithinBufferRefused` | app/api/booking/route.ts:134-165 | once a booking is created, a valid second submission for the same date and branch within 60 minutes of it is refused with 409 |
| `BookingRoute.SingleById` | app/api/booking/route.ts:217-221 | `.single()` yields a row iff exactly one row carries the id, and that row is in the table with that id |
| `BookingRoute.FirstWithId` | app/api/booking/route.ts:217-220 | the lookup finds a row iff some row carries the id, and the row found carries it |
| `BookingRoute.Delete` | app/api/booking/route.ts:205-248 | DELETE leaves the table unchanged unless it deletes, and a deleted booking was in the table and is no longer |
| `BookingRoute.DeleteWithoutIdRefused` | app/api/booking/route.ts:207-214 | a missing or empty id gives 400 and leaves the table unchanged |
| `BookingRoute.DeleteUnknownIdNotFound` | app/api/booking/route.ts:216-228 | an id no row carries gives 404 and leaves the table unchanged |
| `BookingRoute.DeleteRemovesOnlyThatId` | app/api/booking/route.ts:230-248 | a successful delete returns 200 and the row with that id, removes every row with the id, shortens the table by one, and keeps every other row with its multiplicity |
| `BookingRoute.DeleteOutcomeIff` | app/api/booking/route.ts:205-248 | 400 iff there is no id; 404 iff the lookup fails or does not find exactly one row; 500 iff exactly one row is found and the delete fails; deleted iff exactly one row is found and the delete succeeds |
| `BookingRoute.ExistingIdDeleted` | app/api/booking/route.ts:216-248 | under the primary key with a working database, an id some row carries is deleted with 200, the table shrinks by one, and no row with that id remains |
| `BookingRoute.RemovedCount` | app/api/booking/route.ts:231-234 | deleting by id shortens the table by the number of rows that carry the id |
| `BookingRoute.DeleteFindsExistingId` | app/api/booking/route.ts:216-228 | with unique ids and a working query, the lookup fails iff no row carries the id |
| `BookingRoute.DeletePreservesSeparation` | app/api/booking/route.ts:230-234 | deleting keeps the 60-minute separation invariant |
| `Validation.Validate` | app/api/booking/route.ts:69-128 | an accepted submission consists of the body's six fields as submitted |
| `Validation.ValidateFirstFailure` | app/api/booking/route.ts:71-128 | the chain reports `c` iff `c` fails and all checks ranked before it pass |
| `Validation.ValidateAccepts` | app/api/booking/route.ts:71-128 | the chain accepts iff none of the seven checks fails |
| `Bookings.Filter` | app/api/booking/route.ts:40-44 | a query keeps exactly the rows that match, each with its multiplicity, and never adds rows |
| `Bookings.AnyConflict` | app/api/booking/route.ts:150-155 | the `.some` scan is true iff some row's time is within the buffer of the requested time |
| `Bookings.SlotFreeIff` | app/api/booking/route.ts:135-155 | querying by date and branch and then scanning agrees with the buffer rule stated over the whole table |
| `Bookings.CompatibleSymmetric` | app/api/booking/route.ts:150-155 | whether two bookings respect the buffer does not depend on their order |
| `Bookings.SeparatedSnoc` | app/api/booking/route.ts:167-179 | appending a booking keeps the separation invariant iff the new booking keeps the buffer against every row |
| `Bookings.SeparatedCons` | app/api/booking/route.ts:231-234 | a table with a leading booking is separated iff the rest is and that booking keeps the buffer against it |
| `Bookings.FilterKeepsSeparated` | app/api/booking/route.ts:231-234 | removing any rows keeps the separation invariant |
| `Bookings.CountId` | app/api/booking/route.ts:217-221 | the number of rows an id selects is zero iff no row carries it |
| `Bookings.UniqueIdsCountAtMostOne` | app/api/booking/route.ts:217-221 | under a primary key, an id selects at most one row |
| `Clock.NumberOfTwoDigits` | app/api/booking/route.ts:36 | `Number` reads every two-digit numeral back as its value |
| `Clock.TwoDigitsOfNumber` | app/api/booking/route.ts:36 | a two-character piece that converts is the two-digit numeral of its value |
| `Clock.ClockTimeMinutes` | app/api/booking/route.ts:36-37 | on an "HH:MM" time, the conversion gives hours*60 + minutes |
| `Clock.ConflictsSymmetric` | app/api/booking/route.ts:154 | the buffer test `abs(a-b) < 60` is symmetric in the two times |
| `Clock.BufferBoundary` | app/api/booking/route.ts:154 | two times exactly 60 minutes apart do not conflict; 59 minutes apart do |
| `Clock.NaNNeverConflicts` | app/api/booking/route.ts:56-60 | a time that does not convert (NaN) never conflicts with anything |
| `Clock.ClockLex` | app/api/booking/route.ts:123 | string `<` on two "HH:MM" times compares hour tens, hour units, minute tens and minute units in turn |
| `Clock.HoursMinutesOrder` | app/api/booking/route.ts:36-37 | with minutes below 60, hours * 60 + minutes orders by hours first and then by minutes |
| `Clock.ClockOrder` | app/api/booking/route.ts:123 | on "HH:MM" times, string order is the order of minutes since midnight |
| `Clock.ServiceHoursOnClockTimes` | app/api/booking/route.ts:122-128 | for an "HH:MM" time, the string window "08:00".."15:00" is exactly 480..900 minutes |
| `Clock.ServiceHoursAdmitsNonTimes` | app/api/booking/route.ts:123 | the string window also admits "1", which does not convert to minutes |
| `Text.LexLessIrreflexive` | app/api/booking/route.ts:106 | string `<` is irreflexive |
| `Text.LexLessTrichotomy` | app/api/booking/route.ts:106 | exactly one of `a < b`, `a == b`, `b < a` holds for strings |
| `Validation.PastDateIff` | app/api/booking/route.ts:106-111 | the past-date check lets a date through iff it equals today or comes after it in string order |
| `Text.Split` | app/api/booking/route.ts:36 | `split(':')` yields at least one piece, and no piece contains the separator |
| `Text.SplitJoin` | app/api/booking/route.ts:36 | joining the split pieces back with the separator gives the original string |
| `Text.Lower` | app/api/reviews/route.ts:34 | lower-casing keeps the length, leaves no capital A–Z, turns each capital into the small letter at the same place in the alphabet and keeps every other character |
| `Text.LowerIdempotent` | app/api/reviews/route.ts:34 | lower-casing a lower-cased label changes nothing |
| `ExactAvailability.CheckAvailability` | app/api/booking/check-availability/route.ts:4-18 | a query error gives 500 with its message; otherwise 200 with `available` iff no booking has the same date and the identical time string |
| `ExactAvailability.LocationPlaysNoPart` | app/api/booking/check-availability/route.ts:5 | two requests that agree on date and time get the same answer, whatever their location |
| `ExactAvailability.BufferFreeImpliesExactFree` | app/api/booking/check-availability/route.ts:7-17 | at a single branch, a convertible time that keeps the buffer is also reported free by the exact-match check |
| `ExactAvailability.ExactCheckMissesBufferConflict` | app/api/booking/check-availability/route.ts:7-17 | a time within 60 minutes of a same-branch booking, but not at its identical time, is reported available here and taken by the buffer rule |
| `ExactAvailability.HalfHourIsWithinBuffer` | app/api/booking/check-availability/route.ts:11 | "10:30" differs from "10:00" as a string yet lies within the buffer of it |
| `ExactAvailability.ExactCheckBlocksOtherBranch` | app/api/booking/check-availability/route.ts:7-17 | a booking at another branch at the identical time makes this check report the slot taken while the buffer rule finds it free |
| `BookingForm.ValidateFormPerField` | app/booking/page.tsx:43-69 | a field gets a message iff one of its own checks fails; the message is its first failing check, and it is shown |
| `BookingForm.ValidateFormOkIff` | app/booking/page.tsx:43-73 | `validateForm` returns true iff no field has a failing check |
| `BookingForm.InitialFormFlagsEveryInput` | app/booking/page.tsx:10-17 | submitting the page as first rendered flags name, phone, age, date and time and is refused; the branch already holds its only option |
| `BookingForm.FieldsAreIndependent` | app/booking/page.tsx:47-69 | whether a field is flagged, and with what, depends only on that field's value |
| `BookingForm.DateChecksInOrder` | app/booking/page.tsx:58-64 | date checks run empty, then before `minDate`, then weekend; each later message appears only when the earlier checks pass |
| `BookingForm.TimeAcceptedIff` | app/booking/page.tsx:65-69 | a non-empty time is accepted iff it is between "08:00" and "15:00" as a string, and for an "HH:MM" time iff it is between 480 and 900 minutes |
| `BookingForm.HandleChangeTouchesOnlyThatField` | app/booking/page.tsx:34-41 | a change sets only that field's value, blanks only that field's message if there is one, and keeps every other field and message |
| `BookingForm.FormBodyIsSubmission` | app/booking/page.tsx:99-103 | the six-key form body posted to the server is never taken as an availability question |
| `BookingForm.ServerAgreesWithForm` | app/booking/page.tsx:43-73 | with `minDate` set to the server's today and browser and server agreeing on whether the date is a weekend, the server accepts the posted form iff the page accepts it, the branch is set, and the server reads the date as valid |
| `BookingForm.WeekendAlwaysRejected` | app/booking/page.tsx:29-32 | a date both browser and server read as a weekend is refused by the page and by the server, whatever the time |
| `Reviews.CountOf` | app/api/reviews/route.ts:33-38 | a label count never exceeds the number of rows |
| `Reviews.CountClassifications` | app/api/reviews/route.ts:27-38 | the loop, with counters starting at 0, computes the per-label counts of the rows |
| `Reviews.TallySnoc` | app/api/reviews/route.ts:33-38 | one more row increments exactly the counter its lower-cased label names, or none |
| `Reviews.CountOfAppend` | app/api/reviews/route.ts:33-38 | counts of two concatenated lists of rows add up |
| `Reviews.CountOfIgnoresOrder` | app/api/reviews/route.ts:33-38 | each count depends only on the multiset of labels |
| `Reviews.TallyIgnoresOrder` | app/api/reviews/route.ts:33-38 | rearranging the rows does not change the counts |
| `Reviews.TallyAtMostRows` | app/api/reviews/route.ts:35-37 | the three counts sum to at most the number of rows |
| `Reviews.TallyCountsKnownLabels` | app/api/reviews/route.ts:33-38 | the counts sum to the number of rows iff every label is one of the three, case aside |
| `Reviews.ClassifyIgnoresCase` | app/api/reviews/route.ts:34 | a label and its lower-cased form are counted alike |
| `Reviews.UpperCaseLabelsCount` | app/api/reviews/route.ts:34 | "POSITIF", "Netral" and "NEGATIF" count like their lower-case forms |
| `Reviews.Labels` | app/api/reviews/route.ts:33-34 | the classification column is extracted iff no row's classification is null |
| `Reviews.CountedIsTally` | app/api/reviews/route.ts:33-38 | the `forEach` fold over the rows in order yields exactly the per-label counts |
| `Reviews.GetReviews` | app/api/reviews/route.ts:13-45 | a query error gives 500 with its message; null data gives all zeros; a null classification gives 500; otherwise the reply is exactly the per-label counts of the rows, which sum to at most the number of rows |

## Left out

- `GET /api/booking` (app/api/booking/route.ts:4-24): it returns the table as is; the `created_at` ordering is done by the database.
- Supabase and the MySQL pool: the table is an abstract sequence, queries are filters, and a query or write failure is a `Backend` parameter. A failed insert is taken to leave the table unchanged.
- Request parsing: a body that is not JSON, and the `Terjadi kesalahan server` 500 the catch-all returns for it, are not modelled. JSON values are taken as strings, and an absent key reads as the empty string. A null stored `time` (which would throw) is not modelled.
- `BookingForm.ServerAgreesWithForm`: assumes the browser's `isWeekend` and the server's `new Date(date)` agree on whether the date is a weekend, and that the page's `minDate` is the server's today; across timezones either can differ, and then the page and the server can disagree.
- JS date handling: `new Date(date)` validity and weekday depend on the runtime and its timezone. They are the `Calendar` parameter, and today's UTC date is a parameter.
- JS `Number` coercion: only digit strings (and the empty string, as 0) convert; any other form is read as NaN, including surrounding whitespace, signs, decimal points, exponents, hexadecimal, binary (`0b`) and octal (`0o`) prefixes and `Infinity`. Numbers above 2^53 are exact. So the model can accept a booking the handler refuses: a time such as `"0b1010:00"` passes the string window, and JS reads it as 10:00, but here it never conflicts; likewise an age of `"Infinity"` is accepted by the handler and refused here.
- `Text.Lower`: lower-cases only A–Z, not the full Unicode mapping of `toLowerCase`. String order compares code points where JS compares UTF-16 code units; the two differ only for characters outside the Basic Multilingual Plane.
- The `in` lookup at app/api/reviews/route.ts:35 also matches inherited keys such as `constructor`. Only the three own keys are counted.
- Database column types: `.eq` on `date` and `time` is modelled as string equality. A typed column could match differently written equal values, such as "10:00" and "10:00:00".
- check-availability with a missing `date` or `time`: it is read as the empty string, not as `undefined` passed to the query.
- The check-then-insert race between the buffer query and the insert. The model is sequential.
- `handleSubmit` (app/booking/page.tsx:75-122): the async fetch sequence, the alerts, the form reset and the "slot already booked" message it sets are not modelled.
- Message texts: the model keeps the kind of each message, not its text (the page's source has a garbled age message and a mis-encoded dash).
- The admin routes, the chatbot, sentiment and recommendation proxies, the Python services, review statistics and all UI components, none of which hold booking logic.

=== FILE: booking_form.dfy ===
/**
 * The client-side rules of the booking page (app/booking/page.tsx):
 * `validateForm`, which checks every field and collects one message per
 * failing field, and `handleChange`, which edits one field and clears its
 * message. Messages are modelled by kind rather than by their Indonesian text.
 */
module BookingForm {
  import opened Wrappers
  import opened Text
  import opened Clock
  import opened Validation
  import BookingRoute

  datatype FormField = Name | Phone | Age | Date | Time | Location

  /** The `form` state: every input holds a string. */
  datatype Form = Form(name: string, phone: string, age: string, date: string, time: string, location: string)

  /** The form as the page first renders it; the branch select starts on its only option. */
  const InitialForm: Form := Form("", "", "", "", "", "Cabang Depok")

  function Get(form: Form, f: FormField): string {
    match f
    case Name => form.name
    case Phone => form.phone
    case Age => form.age
    case Date => form.date
    case Time => form.time
    case Location => form.location
  }

  /** `{ ...prev, [name]: value }` */
  function Set(form: Form, f: FormField, value: string): Form {
    match f
    case Name => form.(name := value)
    case Phone => form.(phone := value)
    case Age => form.(age := value)
    case Date => form.(date := value)
    case Time => form.(time := value)
    case Location => form.(location := value)
  }

  /** The messages of `validateForm`; `Cleared` is the empty string `handleChange` leaves behind. */
  datatype FormError =
    | NameRequired | PhoneRequired | PhoneFormat | AgeRequired | AgeNotPositive
    | DateRequired | DatePast | DateWeekend | TimeRequired | TimeOutsideHours
    | Cleared

  /** A message is shown when it is truthy, that is, not the cleared empty string. */
  predicate Shown(e: FormError) {
    !e.Cleared?
  }

  type Errors = map<FormField, FormError>

  /**
   * The message a field gets when checked on its own: the first of its checks
   * that fails, or none. `minDate` is today's UTC date once the page has mounted.
   */
  function FieldError(form: Form, f: FormField, minDate: string, calendar: Calendar): Option<FormError> {
    match f
    case Name => if form.name == "" then Some(NameRequired) else None
    case Phone =>
      if form.phone == "" then Some(PhoneRequired)
      else if !PhoneOk(form.phone) then Some(PhoneFormat)
      else None
    case Age =>
      if form.age == "" then Some(AgeRequired)
      else if !AgeOk(form.age) then Some(AgeNotPositive)
      else None
    case Date =>
      if form.date == "" then Some(DateRequired)
      else if LexLess(form.date, minDate) then Some(DatePast)
      else if IsWeekendDay(calendar, form.date) then Some(DateWeekend)
      else None
    case Time =>
      if form.time == "" then Some(TimeRequired)
      else if !InServiceHours(form.time) then Some(TimeOutsideHours)
      else None
    case Location => None
  }

  /** The new error map and the verdict `validateForm` returns. */
  datatype FormCheck = FormCheck(errors: Errors, ok: bool)

  /** One field's if-chain in `validateForm`: write its message, if it has one. */
  function Record(errors: Errors, f: FormField, message: Option<FormError>): Errors {
    match message
    case None => errors
    case Some(m) => errors[f := m]
  }

  /** `validateForm`: the five field chains in source order, then "no key was written". */
  function ValidateForm(form: Form, minDate: string, calendar: Calendar): FormCheck {
    var e0: Errors := map[];
    var e1 := Record(e0, Name, FieldError(form, Name, minDate, calendar));
    var e2 := Record(e1, Phone, FieldError(form, Phone, minDate, calendar));
    var e3 := Record(e2, Age, FieldError(form, Age, minDate, calendar));
    var e4 := Record(e3, Date, FieldError(form, Date, minDate, calendar));
    var e5 := Record(e4, Time, FieldError(form, Time, minDate, calendar));
    FormCheck(e5, |e5| == 0)
  }

  /**
   * Fields are checked independently: a field has an entry exactly when one
   * of its own checks fails, and the entry is that field's first failing check.
   */
  lemma ValidateFormPerField(form: Form, minDate: string, calendar: Calendar, f: FormField)
    ensures var v := ValidateForm(form, minDate, calendar);
      && (f in v.errors <==> FieldError(form, f, minDate, calendar).Some?)
      && (f in v.errors ==> v.errors[f] == FieldError(form, f, minDate, calendar).value && Shown(v.errors[f]))
  {
    match f
    case Name =>
    case Phone =>
    case Age =>
    case Date =>
    case Time =>
    case Location =>
  }

  /** The form is accepted exactly when no field has a failing check. */
  lemma ValidateFormOkIff(form: Form, minDate: string, calendar: Calendar)
    ensures ValidateForm(form, minDate, calendar).ok <==> forall f :: FieldError(form, f, minDate, calendar).None?
  {
    var v := ValidateForm(form, minDate, calendar);
    forall f ensures f in v.errors <==> FieldError(form, f, minDate, calendar).Some? {
      ValidateFormPerField(form, minDate, calendar, f);
    }
    if v.ok {
      assert v.errors == map[];
    } else {
      var f :| f in v.errors;
    }
  }

  /** Submitting the untouched page flags every field but the branch, which starts on its only option. */
  lemma InitialFormFlagsEveryInput(minDate: string, calendar: Calendar)
    ensures ValidateForm(InitialForm, minDate, calendar).errors.Keys == {Name, Phone, Age, Date, Time}
    ensures !ValidateForm(InitialForm, minDate, calendar).ok
  {
    var e := ValidateForm(InitialForm, minDate, calendar).errors;
    forall f ensures f in e <==> f != Location {
      ValidateFormPerField(InitialForm, minDate, calendar, f);
    }
    assert Name in e;
  }

  /** Whether a field is flagged depends on that field's value alone. */
  lemma FieldsAreIndependent(form1: Form, form2: Form, minDate: string, calendar: Calendar, f: FormField)
    requires Get(form1, f) == Get(form2, f)
    ensures var v1, v2 := ValidateForm(form1, minDate, calendar), ValidateForm(form2, minDate, calendar);
      (f in v1.errors <==> f in v2.errors) && (f in v1.errors ==> v1.errors[f] == v2.errors[f])
  {
    ValidateFormPerField(form1, minDate, calendar, f);
    ValidateFormPerField(form2, minDate, calendar, f);
  }

  /**
   * The date checks run in order, empty, then before `minDate`, then weekend;
   * each later check is reported only when the earlier ones pass.
   */
  lemma DateChecksInOrder(form: Form, minDate: string, calendar: Calendar)
    ensures var e := ValidateForm(form, minDate, calendar).errors;
      && (Date !in e <==> form.date != "" && !LexLess(form.date, minDate) && !IsWeekendDay(calendar, form.date))
      && (Date in e && e[Date] == DateRequired <==> form.date == "")
      && (Date in e && e[Date] == DatePast <==> form.date != "" && LexLess(form.date, minDate))
      && (Date in e && e[Date] == DateWeekend <==>
            form.date != "" && !LexLess(form.date, minDate) && IsWeekendDay(calendar, form.date))
  {
    ValidateFormPerField(form, minDate, calendar, Date);
  }

  /**
   * A non-empty time is accepted exactly when it lies between "08:00" and
   * "15:00" as a string; for a clock time, exactly when it is 08:00 to 15:00.
   */
  lemma TimeAcceptedIff(form: Form, minDate: string, calendar: Calendar)
    requires form.time != ""
    ensures Time !in ValidateForm(form, minDate, calendar).errors <==>
      !LexLess(form.time, "08:00") && !LexLess("15:00", form.time)
    ensures IsClockTime(form.time) ==>
      && Minutes(form.time).Some?
      && (Time !in ValidateForm(form, minDate, calendar).errors <==> 480 <= Minutes(form.time).value <= 900)
  {
    ValidateFormPerField(form, minDate, calendar, Time);
    if IsClockTime(form.time) {
      ServiceHoursOnClockTimes(form.time);
    }
  }

  /** The page state `handleChange` works on. */
  datatype FormState = FormState(form: Form, errors: Errors)

  /** `handleChange`: set the field; if its message is shown, blank it. */
  function HandleChange(st: FormState, f: FormField, value: string): FormState {
    var form := Set(st.form, f, value);
    if f in st.errors && Shown(st.errors[f]) then FormState(form, st.errors[f := Cleared])
    else FormState(form, st.errors)
  }

  /**
   * A change touches only the changed field: its value becomes the new one
   * and its message, if any, is no longer shown; every other field and
   * message stays as it was, and no message appears or disappears.
   */
  lemma HandleChangeTouchesOnlyThatField(st: FormState, f: FormField, value: string)
    ensures var st2 := HandleChange(st, f, value);
      && (forall g :: Get(st2.form, g) == if g == f then value else Get(st.form, g))
      && st2.errors.Keys == st.errors.Keys
      && (f in st2.errors ==> !Shown(st2.errors[f]))
      && (forall g :: g in st.errors && g != f ==> st2.errors[g] == st.errors[g])
  {
    var st2 := HandleChange(st, f, value);
    forall g ensures Get(st2.form, g) == if g == f then value else Get(st.form, g) {
      match f
      case Name =>
      case Phone =>
      case Age =>
      case Date =>
      case Time =>
      case Location =>
    }
  }

  /** `JSON.stringify(form)`, the body the page posts to /api/booking. */
  function FormBody(form: Form): Body {
    map["name" := form.name, "phone" := form.phone, "age" := form.age,
        "date" := form.date, "time" := form.time, "location" := form.location]
  }

  /** The form's six keys never look like an availability question to the server. */
  lemma FormBodyIsSubmission(form: Form)
    ensures !BookingRoute.IsAvailabilityCheck(FormBody(form))
  {
    var body := FormBody(form);
    assert body.Keys == {"name", "phone", "age", "date", "time", "location"};
  }

  /**
   * With `minDate` set to the server's today, the server's chain accepts the
   * posted form exactly when the page accepts it, the branch is set, and the
   * date reads as a valid date: the page never checks those two. The browser
   * (`pageCal`) and the server (`serverCal`) each read the date in their own
   * timezone; the agreement needs them to agree on whether it is a weekend.
   */
  lemma ServerAgreesWithForm(form: Form, today: string, pageCal: Calendar, serverCal: Calendar)
    requires IsWeekendDay(pageCal, form.date) == IsWeekendDay(serverCal, form.date)
    ensures Validate(FormBody(form), today, serverCal).Ok? <==>
      ValidateForm(form, today, pageCal).ok && form.location != "" && serverCal(form.date).Some?
  {
    var body := FormBody(form);
    assert Field(body, "name") == form.name && Field(body, "phone") == form.phone && Field(body, "age") == form.age;
    assert Field(body, "date") == form.date && Field(body, "time") == form.time && Field(body, "location") == form.location;
    ValidateFormOkIff(form, today, pageCal);
    assert FieldError(form, Name, today, pageCal).None? <==> form.name != "";
    assert FieldError(form, Phone, today, pageCal).None? <==> form.phone != "" && PhoneOk(form.phone);
    assert FieldError(form, Age, today, pageCal).None? <==> form.age != "" && AgeOk(form.age);
    assert FieldError(form, Date, today, pageCal).None? <==>
      form.date != "" && !LexLess(form.date, today) && !IsWeekendDay(serverCal, form.date);
    assert FieldError(form, Location, today, pageCal).None?;
  }

  /** A date both the browser and the server read as a weekend is refused by the page and by the server, whatever the time. */
  lemma WeekendAlwaysRejected(form: Form, today: string, pageCal: Calendar, serverCal: Calendar)
    requires IsWeekendDay(pageCal, form.date) && IsWeekendDay(serverCal, form.date)
    ensures !ValidateForm(form, today, pageCal).ok
    ensures !Validate(FormBody(form), today, serverCal).Ok?
  {
    ValidateFormPerField(form, today, pageCal, Date);
    ServerAgreesWithForm(form, today, pageCal, serverCal);
  }
}

=== FILE: booking_route.dfy ===
/**
 * The `/api/booking` handlers (app/api/booking/route.ts): POST, which either
 * answers an availability question or validates, buffer-checks and inserts a
 * submission, and DELETE, which removes a booking by id.
 *
 * Each handler is a function from the request body and the table to an
 * outcome and the table afterwards. What the runtime supplies is passed in:
 * today's UTC date, the reading of a date string, the id the database
 * assigns, the handler's clock reading stored as `created_at`, and whether
 * the database's queries and writes fail.
 */
module BookingRoute {
  import opened Wrappers
  import opened Text
  import opened Clock
  import opened Bookings
  import opened Validation

  /** The database's answer for this request: a query failure and a write failure, each with its message. */
  datatype Backend = Backend(queryError: Option<string>, writeError: Option<string>)

  /** A paired outcome and table after the request. */
  datatype Handled<O> = Handled(outcome: O, store: Store)

  datatype PostOutcome =
    | Availability(available: bool)   // `{ available }`
    | Invalid(reason: Rejection)      // `{ error }`
    | SlotTaken                       // `{ error, available: false }`
    | Created(booking: Booking)       // `{ success: true, booking, message }`
    | Failed(message: string)         // `{ error }`

  function PostStatus(o: PostOutcome): nat {
    match o
    case Availability(_) => 200
    case Invalid(_) => 400
    case SlotTaken => 409
    case Created(_) => 201
    case Failed(_) => 500
  }

  const AvailabilityQueryFailed: string := "Gagal memeriksa ketersediaan"
  const SlotQueryFailed: string := "Gagal memeriksa ketersediaan slot"
  const InsertFailed: string := "Gagal menyimpan booking"

  /** A body with truthy `date`, `time` and `location` and no other key asks only about availability. */
  predicate IsAvailabilityCheck(body: Body) {
    Truthy(body, "date") && Truthy(body, "time") && Truthy(body, "location") && |body.Keys| == 3
  }

  /** POST /api/booking */
  function Post(body: Body, store: Store, today: string, calendar: Calendar,
                db: Backend, newId: string, now: string): (h: Handled<PostOutcome>)
    ensures h.store == store || (h.outcome.Created? && h.store == store + [h.outcome.booking])
    ensures h.outcome.Availability? ==> IsAvailabilityCheck(body)
  {
    if IsAvailabilityCheck(body) then
      if db.queryError.Some? then Handled(Failed(AvailabilityQueryFailed), store)
      else
        var free := SlotFree(store, Field(body, "date"), Field(body, "location"), Minutes(Field(body, "time")));
        Handled(Availability(free), store)
    else
      match Validate(body, today, calendar)
      case Err(reason) => Handled(Invalid(reason), store)
      case Ok(s) =>
        if db.queryError.Some? then Handled(Failed(SlotQueryFailed), store)
        else if !SlotFree(store, s.date, s.location, Minutes(s.time)) then Handled(SlotTaken, store)
        else if db.writeError.Some? then Handled(Failed(InsertFailed), store)
        else
          var b := Booking(newId, s.name, s.phone, s.age, s.date, s.time, s.location, now);
          Handled(Created(b), store + [b])
  }

  /**
   * Availability mode never writes, and, when the query succeeds, reports a
   * time available exactly when it keeps the buffer against every booking
   * on that date at that branch.
   */
  lemma AvailabilityModeIsReadOnly(body: Body, store: Store, today: string, calendar: Calendar,
                                   db: Backend, newId: string, now: string)
    requires IsAvailabilityCheck(body)
    ensures var h := Post(body, store, today, calendar, db, newId, now);
      && h.store == store
      && (db.queryError.Some? ==> h.outcome == Failed(AvailabilityQueryFailed) && PostStatus(h.outcome) == 500)
      && (db.queryError.None? ==>
            && h.outcome.Availability? && PostStatus(h.outcome) == 200
            && (h.outcome.available <==>
                  forall i :: 0 <= i < |store| && SameSlotDay(store[i], Field(body, "date"), Field(body, "location")) ==>
                    Minutes(Field(body, "time")).None? || Minutes(store[i].time).None?
                    || Abs(Minutes(Field(body, "time")).value - Minutes(store[i].time).value) >= 60))
  {
    SlotFreeIff(store, Field(body, "date"), Field(body, "location"), Minutes(Field(body, "time")));
  }

  /** Any other body is a submission: availability is never the answer to it. */
  lemma SubmissionNeverAnswersAvailability(body: Body, store: Store, today: string, calendar: Calendar,
                                           db: Backend, newId: string, now: string)
    requires !IsAvailabilityCheck(body)
    ensures !Post(body, store, today, calendar, db, newId, now).outcome.Availability?
  {
  }

  /**
   * A submission is rejected with status 400 and the reason of the first
   * failing check, in the fixed order, and the table is left as it was.
   */
  lemma SubmissionRejectedByFirstFailingCheck(body: Body, store: Store, today: string, calendar: Calendar,
                                              db: Backend, newId: string, now: string, c: Rejection)
    requires !IsAvailabilityCheck(body)
    ensures var h := Post(body, store, today, calendar, db, newId, now);
      h.outcome == Invalid(c) <==>
        Fails(c, body, today, calendar) && forall e :: Rank(e) < Rank(c) ==> !Fails(e, body, today, calendar)
    ensures var h := Post(body, store, today, calendar, db, newId, now);
      h.outcome.Invalid? ==> h.store == store && PostStatus(h.outcome) == 400
  {
    ValidateFirstFailure(body, today, calendar, c);
  }

  /**
   * A created booking carries exactly the submitted fields, a 10-15 digit
   * phone, a positive age, a valid weekday date not before today and a time
   * inside the service window; it is the one row added, with status 201.
   */
  lemma AcceptedBookingIsValid(body: Body, store: Store, today: string, calendar: Calendar,
                               db: Backend, newId: string, now: string)
    requires Post(body, store, today, calendar, db, newId, now).outcome.Created?
    ensures var h := Post(body, store, today, calendar, db, newId, now);
      var b := h.outcome.booking;
      && PostStatus(h.outcome) == 201
      && h.store == store + [b]
      && b == Booking(newId, Field(body, "name"), Field(body, "phone"), Field(body, "age"),
                      Field(body, "date"), Field(body, "time"), Field(body, "location"), now)
      && b.name != "" && b.location != ""
      && 10 <= |b.phone| <= 15 && (forall i :: 0 <= i < |b.phone| ==> '0' <= b.phone[i] <= '9')
      && NumberOf(b.age).Some? && NumberOf(b.age).value > 0
      && !LexLess(b.date, today)
      && calendar(b.date).Some? && calendar(b.date).value != 0 && calendar(b.date).value != 6
      && !LexLess(b.time, "08:00") && !LexLess("15:00", b.time)
      && SlotFree(store, b.date, b.location, Minutes(b.time))
  {
  }

  /**
   * A submission that passes validation is refused with 409 exactly when the
   * database answers and some booking that day at that branch lies within
   * the buffer; the table is then unchanged.
   */
  lemma ConflictRejectsWithoutWriting(body: Body, store: Store, today: string, calendar: Calendar,
                                      db: Backend, newId: string, now: string)
    requires !IsAvailabilityCheck(body)
    requires Validate(body, today, calendar).Ok?
    ensures var h := Post(body, store, today, calendar, db, newId, now);
      h.outcome == SlotTaken <==>
        db.queryError.None? &&
        exists i :: 0 <= i < |store| && SameSlotDay(store[i], Field(body, "date"), Field(body, "location")) &&
          Conflicts(Minutes(Field(body, "time")), Minutes(store[i].time))
    ensures var h := Post(body, store, today, calendar, db, newId, now);
      h.outcome == SlotTaken ==> h.store == store && PostStatus(h.outcome) == 409
  {
    SlotFreeIff(store, Field(body, "date"), Field(body, "location"), Minutes(Field(body, "time")));
  }

  /**
   * A valid submission whose slot keeps the buffer is inserted, with the
   * submitted fields, the database's id and the handler's timestamp, when
   * the database answers and accepts the write.
   */
  lemma ValidFreeSubmissionCreated(body: Body, store: Store, today: string, calendar: Calendar,
                                   newId: string, now: string)
    requires !IsAvailabilityCheck(body) && Validate(body, today, calendar).Ok?
    requires SlotFree(store, Field(body, "date"), Field(body, "location"), Minutes(Field(body, "time")))
    ensures var b := Booking(newId, Field(body, "name"), Field(body, "phone"), Field(body, "age"),
                             Field(body, "date"), Field(body, "time"), Field(body, "location"), now);
      && Post(body, store, today, calendar, Backend(None, None), newId, now) == Handled(Created(b), store + [b])
      && PostStatus(Created(b)) == 201
  {
  }

  /**
   * A submission fails with 500 exactly when it passes validation and then
   * the buffer query fails, or the slot is free and the insert fails; the
   * table is then unchanged.
   */
  lemma SubmissionFailsOnlyOnBackendError(body: Body, store: Store, today: string, calendar: Calendar,
                                          db: Backend, newId: string, now: string)
    requires !IsAvailabilityCheck(body)
    ensures var h := Post(body, store, today, calendar, db, newId, now);
      h.outcome.Failed? <==>
        && Validate(body, today, calendar).Ok?
        && (|| db.queryError.Some?
            || (SlotFree(store, Field(body, "date"), Field(body, "location"), Minutes(Field(body, "time")))
                && db.writeError.Some?))
    ensures var h := Post(body, store, today, calendar, db, newId, now);
      h.outcome.Failed? ==> h.store == store && PostStatus(h.outcome) == 500
  {
  }

  /** Every POST keeps the buffer invariant of the table. */
  lemma PostPreservesSeparation(body: Body, store: Store, today: string, calendar: Calendar,
                                db: Backend, newId: string, now: string)
    requires Separated(store)
    ensures Separated(Post(body, store, today, calendar, db, newId, now).store)
  {
    var h := Post(body, store, today, calendar, db, newId, now);
    if h.outcome.Created? {
      var b := h.outcome.booking;
      SlotFreeIff(store, b.date, b.location, Minutes(b.time));
      forall y | y in store ensures Compatible(b, y) {
        var k :| 0 <= k < |store| && store[k] == y;
      }
      SeparatedSnoc(store, b);
    }
  }

  /** With an id the table does not yet hold, every POST keeps the ids unique. */
  lemma PostPreservesUniqueIds(body: Body, store: Store, today: string, calendar: Calendar,
                               db: Backend, newId: string, now: string)
    requires UniqueIds(store)
    requires forall b :: b in store ==> b.id != newId
    ensures UniqueIds(Post(body, store, today, calendar, db, newId, now).store)
  {
    var h := Post(body, store, today, calendar, db, newId, now);
    if h.outcome.Created? {
      var s := h.store;
      forall i, j | 0 <= i < |s| && 0 <= j < |s| && i != j ensures s[i].id != s[j].id {
        if i < |store| && j < |store| {
          assert s[i] == store[i] && s[j] == store[j];
        } else if i < |store| {
          assert s[i] in store;
        } else {
          assert s[j] in store;
        }
      }
    }
  }

  /**
   * Once a booking is created, a second submission for the same date and
   * branch whose time lies within the buffer of it is refused with 409.
   */
  lemma SecondBookingWithinBufferRefused(body1: Body, body2: Body, store: Store, today: string, calendar: Calendar,
                                         db: Backend, id1: string, id2: string, now1: string, now2: string)
    requires Post(body1, store, today, calendar, db, id1, now1).outcome.Created?
    requires !IsAvailabilityCheck(body2) && Validate(body2, today, calendar).Ok?
    requires Field(body2, "date") == Field(body1, "date") && Field(body2, "location") == Field(body1, "location")
    requires Conflicts(Minutes(Field(body2, "time")), Minutes(Field(body1, "time")))
    ensures var h1 := Post(body1, store, today, calendar, db, id1, now1);
      Post(body2, h1.store, today, calendar, db, id2, now2).outcome == SlotTaken
  {
    var h1 := Post(body1, store, today, calendar, db, id1, now1);
    var s1 := h1.store;
    assert s1[|store|] == h1.outcome.booking;
    ConflictRejectsWithoutWriting(body2, s1, today, calendar, db, id2, now2);
  }

  datatype DeleteOutcome =
    | MissingId                   // 'ID booking tidak diberikan'
    | NotFound                    // 'Booking tidak ditemukan'
    | DeleteFailed(message: string)
    | Deleted(booking: Booking)   // `{ success: true, message, deleted_booking }`

  function DeleteStatus(o: DeleteOutcome): nat {
    match o
    case MissingId => 400
    case NotFound => 404
    case DeleteFailed(_) => 500
    case Deleted(_) => 200
  }

  /** `.select('*').eq('id', id).single()`: the row, when exactly one carries the id. */
  function SingleById(store: Store, id: string): (r: Option<Booking>)
    ensures r.Some? <==> CountId(store, id) == 1
    ensures r.Some? ==> r.value in store && r.value.id == id
  {
    if CountId(store, id) != 1 then None else FirstWithId(store, id)
  }

  function FirstWithId(store: Store, id: string): (r: Option<Booking>)
    ensures r.Some? <==> exists b :: b in store && b.id == id
    ensures r.Some? ==> r.value in store && r.value.id == id
  {
    if |store| == 0 then None
    else if store[0].id == id then Some(store[0])
    else FirstWithId(store[1..], id)
  }

  /** DELETE /api/booking: a failed lookup (none, several, or a query error) reads as not found. */
  function Delete(body: Body, store: Store, db: Backend): (h: Handled<DeleteOutcome>)
    ensures !h.outcome.Deleted? ==> h.store == store
    ensures h.outcome.Deleted? ==> h.outcome.booking in store && h.outcome.booking !in h.store
  {
    if !Truthy(body, "id") then Handled(MissingId, store)
    else
      var id := Field(body, "id");
      var found := SingleById(store, id);
      if db.queryError.Some? || found.None? then Handled(NotFound, store)
      else if db.writeError.Some? then Handled(DeleteFailed(db.writeError.value), store)
      else
        var rest := WithoutId(store, id);
        assert multiset(rest)[found.value] == 0;
        Handled(Deleted(found.value), rest)
  }

  /** Without a truthy id the request is refused with 400 and nothing changes. */
  lemma DeleteWithoutIdRefused(body: Body, store: Store, db: Backend)
    requires !Truthy(body, "id")
    ensures Delete(body, store, db) == Handled(MissingId, store)
    ensures DeleteStatus(MissingId) == 400
  {
  }

  /** An id no row carries gives 404 and leaves the table unchanged. */
  lemma DeleteUnknownIdNotFound(body: Body, store: Store, db: Backend)
    requires Truthy(body, "id")
    requires forall b :: b in store ==> b.id != Field(body, "id")
    ensures Delete(body, store, db) == Handled(NotFound, store)
    ensures DeleteStatus(NotFound) == 404
  {
  }

  /**
   * A successful delete returns the row that carried the id and removes
   * every row with that id; every other row keeps its multiplicity.
   */
  lemma DeleteRemovesOnlyThatId(body: Body, store: Store, db: Backend)
    requires Delete(body, store, db).outcome.Deleted?
    ensures var h := Delete(body, store, db);
      var id := Field(body, "id");
      && DeleteStatus(h.outcome) == 200
      && h.outcome.booking in store && h.outcome.booking.id == id
      && |h.store| == |store| - 1
      && (forall b :: b in h.store ==> b.id != id)
      && (forall b: Booking :: b.id != id ==> multiset(h.store)[b] == multiset(store)[b])
  {
    var h := Delete(body, store, db);
    var id := Field(body, "id");
    RemovedCount(store, id);
    forall b | b in h.store ensures b.id != id {
      assert multiset(h.store)[b] > 0;
    }
  }

  /**
   * Which of the four outcomes DELETE gives: 400 without an id; 404 when the
   * lookup fails or does not find exactly one row; 500 when the row is found
   * but the delete fails; otherwise the row is deleted.
   */
  lemma DeleteOutcomeIff(body: Body, store: Store, db: Backend)
    ensures var h, id := Delete(body, store, db), Field(body, "id");
      && (h.outcome == MissingId <==> !Truthy(body, "id"))
      && (h.outcome == NotFound <==> Truthy(body, "id") && (db.queryError.Some? || CountId(store, id) != 1))
      && (h.outcome.DeleteFailed? <==>
            Truthy(body, "id") && db.queryError.None? && CountId(store, id) == 1 && db.writeError.Some?)
      && (h.outcome.Deleted? <==>
            Truthy(body, "id") && db.queryError.None? && CountId(store, id) == 1 && db.writeError.None?)
  {
  }

  /** Under the primary key, an id some row carries is deleted when the database answers and accepts the write. */
  lemma ExistingIdDeleted(body: Body, store: Store)
    requires UniqueIds(store) && Truthy(body, "id")
    requires exists b :: b in store && b.id == Field(body, "id")
    ensures var h := Delete(body, store, Backend(None, None));
      && h.outcome.Deleted? && h.outcome.booking.id == Field(body, "id")
      && DeleteStatus(h.outcome) == 200
      && |h.store| == |store| - 1
      && forall b :: b in h.store ==> b.id != Field(body, "id")
  {
    UniqueIdsCountAtMostOne(store, Field(body, "id"));
    DeleteRemovesOnlyThatId(body, store, Backend(None, None));
  }

  /** Removing the rows with an id shortens the table by the number of such rows. */
  lemma {:induction false} RemovedCount(store: Store, id: string)
    ensures |WithoutId(store, id)| == |store| - CountId(store, id)
    decreases |store|
  {
    if |store| > 0 {
      RemovedCount(store[1..], id);
    }
  }

  /** Under the primary key, the lookup finds a row exactly when some row carries the id. */
  lemma DeleteFindsExistingId(body: Body, store: Store, db: Backend)
    requires UniqueIds(store) && Truthy(body, "id") && db.queryError.None?
    ensures Delete(body, store, db).outcome != NotFound <==> exists b :: b in store && b.id == Field(body, "id")
  {
    UniqueIdsCountAtMostOne(store, Field(body, "id"));
  }

  /** Every DELETE keeps the buffer invariant of the table. */
  lemma DeletePreservesSeparation(body: Body, store: Store, db: Backend)
    requires Separated(store)
    ensures Separated(Delete(body, store, db).store)
  {
    if Truthy(body, "id") {
      FilterKeepsSeparated(store, (b: Booking) => b.id != Field(body, "id"));
    }
  }
}

=== FILE: bookings.dfy ===
/**
 * The `bookings` table as an abstract store, the row filters the handlers
 * query it with, and the buffer invariant: two bookings on the same date at
 * the same branch are at least an hour apart.
 */
module Bookings {
  import opened Wrappers
  import opened Clock

  /** One row of the `bookings` table; `id` and `createdAt` are set when the row is inserted. */
  datatype Booking = Booking(
    id: string,
    name: string,
    phone: string,
    age: string,
    date: string,
    time: string,
    location: string,
    createdAt: string)

  /** The table, in insertion order. */
  type Store = seq<Booking>

  /** The rows of `s` that satisfy `p`, in their original order and multiplicity. */
  function Filter<T(!new)>(s: seq<T>, p: T -> bool): (r: seq<T>)
    ensures |r| <= |s|
    ensures forall x :: multiset(r)[x] == if p(x) then multiset(s)[x] else 0
  {
    if |s| == 0 then []
    else
      var tail := Filter(s[1..], p);
      assert s == [s[0]] + s[1..];
      if p(s[0]) then [s[0]] + tail else tail
  }

  predicate SameSlotDay(b: Booking, date: string, location: string) {
    b.date == date && b.location == location
  }

  /** `.eq('date', date).eq('location', location)` */
  function AtBranchOn(store: Store, date: string, location: string): Store {
    Filter(store, (b: Booking) => SameSlotDay(b, date, location))
  }

  /** `rows.some(b => Math.abs(requested - minutes(b.time)) < 60)` */
  function AnyConflict(rows: Store, requested: Option<int>): (hit: bool)
    ensures hit <==> exists b :: b in rows && Conflicts(requested, Minutes(b.time))
  {
    if |rows| == 0 then false
    else Conflicts(requested, Minutes(rows[0].time)) || AnyConflict(rows[1..], requested)
  }

  /** The requested time keeps the buffer against every booking that day at that branch. */
  predicate SlotFree(store: Store, date: string, location: string, requested: Option<int>) {
    !AnyConflict(AtBranchOn(store, date, location), requested)
  }

  /** The query-then-scan agrees with the buffer rule stated over the whole table. */
  lemma SlotFreeIff(store: Store, date: string, location: string, requested: Option<int>)
    ensures SlotFree(store, date, location, requested) <==>
      forall i :: 0 <= i < |store| && SameSlotDay(store[i], date, location) ==>
        !Conflicts(requested, Minutes(store[i].time))
  {
    var rows := AtBranchOn(store, date, location);
    if SlotFree(store, date, location, requested) {
      forall i | 0 <= i < |store| && SameSlotDay(store[i], date, location)
        ensures !Conflicts(requested, Minutes(store[i].time))
      {
        assert multiset(rows)[store[i]] > 0;
        assert store[i] in rows;
      }
    } else {
      var b :| b in rows && Conflicts(requested, Minutes(b.time));
      assert multiset(store)[b] > 0;
      var i :| 0 <= i < |store| && store[i] == b;
    }
  }

  /** `x` does not break the buffer against `y`. */
  predicate Compatible(x: Booking, y: Booking) {
    SameSlotDay(y, x.date, x.location) ==> !Conflicts(Minutes(x.time), Minutes(y.time))
  }

  lemma CompatibleSymmetric(x: Booking, y: Booking)
    ensures Compatible(x, y) <==> Compatible(y, x)
  {
    ConflictsSymmetric(Minutes(x.time), Minutes(y.time));
  }

  /** The buffer invariant: any two distinct rows at one branch on one day are an hour apart. */
  predicate Separated(store: Store) {
    forall i, j :: 0 <= i < |store| && 0 <= j < |store| && i != j ==> Compatible(store[i], store[j])
  }

  /** Appending a row keeps the invariant exactly when the row keeps the buffer against every row. */
  lemma SeparatedSnoc(store: Store, b: Booking)
    ensures Separated(store + [b]) <==> Separated(store) && forall y :: y in store ==> Compatible(b, y)
  {
    var s := store + [b];
    if Separated(s) {
      forall y | y in store ensures Compatible(b, y) {
        var k :| 0 <= k < |store| && store[k] == y;
        assert s[|store|] == b && s[k] == y;
      }
      assert forall i :: 0 <= i < |store| ==> s[i] == store[i];
    }
    if Separated(store) && forall y :: y in store ==> Compatible(b, y) {
      forall i, j | 0 <= i < |s| && 0 <= j < |s| && i != j ensures Compatible(s[i], s[j]) {
        if i == |store| {
          assert s[j] in store;
        } else if j == |store| {
          assert s[i] in store;
          CompatibleSymmetric(s[i], b);
        } else {
          assert s[i] == store[i] && s[j] == store[j];
        }
      }
    }
  }

  /** Prepending a row keeps the invariant exactly when the row keeps the buffer against every row. */
  lemma SeparatedCons(b: Booking, store: Store)
    ensures Separated([b] + store) <==> Separated(store) && forall y :: y in store ==> Compatible(b, y)
  {
    var s := [b] + store;
    if Separated(s) {
      forall y | y in store ensures Compatible(b, y) {
        var k :| 0 <= k < |store| && store[k] == y;
        assert s[0] == b && s[k + 1] == y;
      }
      forall i, j | 0 <= i < |store| && 0 <= j < |store| && i != j ensures Compatible(store[i], store[j]) {
        assert s[i + 1] == store[i] && s[j + 1] == store[j];
      }
    }
    if Separated(store) && forall y :: y in store ==> Compatible(b, y) {
      forall i, j | 0 <= i < |s| && 0 <= j < |s| && i != j ensures Compatible(s[i], s[j]) {
        if i == 0 {
          assert s[j] == store[j - 1];
        } else if j == 0 {
          assert s[i] == store[i - 1];
          CompatibleSymmetric(s[i], b);
        } else {
          assert s[i] == store[i - 1] && s[j] == store[j - 1];
        }
      }
    }
  }

  /** Keeping any subset of the rows, in order, keeps the invariant. */
  lemma {:induction false} FilterKeepsSeparated(store: Store, p: Booking -> bool)
    requires Separated(store)
    ensures Separated(Filter(store, p))
    decreases |store|
  {
    if |store| > 0 {
      var b, tail := store[0], store[1..];
      assert store == [b] + tail;
      SeparatedCons(b, tail);
      FilterKeepsSeparated(tail, p);
      if p(b) {
        var kept := Filter(tail, p);
        forall y | y in kept ensures Compatible(b, y) {
          assert multiset(kept)[y] > 0;
          assert y in tail;
        }
        SeparatedCons(b, kept);
      }
    }
  }

  /** `.delete().eq('id', id)`: every row carrying the id goes, every other row stays. */
  function WithoutId(store: Store, id: string): Store {
    Filter(store, (b: Booking) => b.id != id)
  }

  /** The number of rows `.eq('id', id)` selects. */
  function CountId(store: Store, id: string): (n: nat)
    ensures n <= |store|
    ensures n == 0 <==> forall b :: b in store ==> b.id != id
  {
    if |store| == 0 then 0
    else (if store[0].id == id then 1 else 0) + CountId(store[1..], id)
  }

  /** The table's primary key: no two rows share an id. */
  predicate UniqueIds(store: Store) {
    forall i, j :: 0 <= i < |store| && 0 <= j < |store| && i != j ==> store[i].id != store[j].id
  }

  /** Under the primary key, an id selects at most one row. */
  lemma {:induction false} UniqueIdsCountAtMostOne(store: Store, id: string)
    requires UniqueIds(store)
    ensures CountId(store, id) <= 1
    decreases |store|
  {
    if |store| > 0 {
      var tail := store[1..];
      assert UniqueIds(tail) by {
        forall i, j | 0 <= i < |tail| && 0 <= j < |tail| && i != j ensures tail[i].id != tail[j].id {
          assert tail[i] == store[i + 1] && tail[j] == store[j + 1];
        }
      }
      UniqueIdsCountAtMostOne(tail, id);
      if store[0].id == id {
        forall b | b in tail ensures b.id != id {
          var k :| 0 <= k < |tail| && tail[k] == b;
          assert store[k + 1] == b;
        }
      }
    }
  }
}

=== FILE: clock.dfy ===
/**
 * Times of day in the booking rules: the conversion of a "HH:MM" string to
 * minutes since midnight, the one-hour buffer between two times, and the
 * service window, which the handler checks by comparing strings.
 */
module Clock {
  import opened Wrappers
  import opened Text

  /** Minimum separation, in minutes, between two bookings at one branch on one day. */
  const Buffer: nat := 60

  /** First and last bookable time, compared as strings. */
  const Opening: string := "08:00"
  const Closing: string := "15:00"

  /**
   * JS `Number(piece)` on one piece of a split time: an all-digit piece,
   * the empty one included, denotes its decimal value; anything else is NaN (None).
   */
  function NumberOf(piece: string): Option<nat> {
    if AllDigits(piece) then Some(DecimalValue(piece)) else None
  }

  /** The two-digit numeral of `n`, as a time input writes hours and minutes. */
  function TwoDigits(n: nat): string
    requires n < 100
  {
    [('0' as int + n / 10) as char, ('0' as int + n % 10) as char]
  }

  /** `Number` reads every two-digit numeral back as its value. */
  lemma NumberOfTwoDigits(n: nat)
    requires n < 100
    ensures NumberOf(TwoDigits(n)) == Some(n)
  {
    var t := TwoDigits(n);
    assert AllDigits(t);
    TwoDigitValue(t);
  }

  /** A two-character piece that converts is the two-digit numeral of its value. */
  lemma TwoDigitsOfNumber(piece: string)
    requires |piece| == 2 && NumberOf(piece).Some?
    ensures NumberOf(piece).value < 100 && TwoDigits(NumberOf(piece).value) == piece
  {
    TwoDigitValue(piece);
    var v := NumberOf(piece).value;
    assert v / 10 == DigitValue(piece[0]) && v % 10 == DigitValue(piece[1]);
    assert TwoDigits(v) == [piece[0], piece[1]];
  }

  /**
   * `const [h, m] = t.split(':').map(Number); h * 60 + m`. A missing minute
   * piece is `undefined`, which makes the sum NaN; pieces after the second are ignored.
   */
  function Minutes(t: string): Option<int>
  {
    var pieces := Split(t, ':');
    if |pieces| < 2 then None
    else
      match (NumberOf(pieces[0]), NumberOf(pieces[1]))
      case (Some(h), Some(m)) => Some(h * 60 + m)
      case _ => None
  }

  function Abs(x: int): nat {
    if x < 0 then -x else x
  }

  /** `Math.abs(a - b) < 60`, which is false whenever either side is NaN. */
  predicate Conflicts(a: Option<int>, b: Option<int>) {
    a.Some? && b.Some? && Abs(a.value - b.value) < Buffer
  }

  /** The buffer relation does not care which of the two times came first. */
  lemma ConflictsSymmetric(a: Option<int>, b: Option<int>)
    ensures Conflicts(a, b) <==> Conflicts(b, a)
  {
  }

  /** The test is strict: two times exactly one buffer apart do not conflict, one minute less does. */
  lemma BufferBoundary(m: int)
    ensures !Conflicts(Some(m), Some(m + Buffer))
    ensures Conflicts(Some(m), Some(m + Buffer - 1))
  {
  }

  /** A time that does not convert (NaN) never conflicts with anything. */
  lemma NaNNeverConflicts(a: Option<int>)
    ensures !Conflicts(None, a) && !Conflicts(a, None)
  {
  }

  /** A time of day "HH:MM" as a time input produces it: minute tens digit at most 5. */
  predicate IsClockTime(t: string) {
    && |t| == 5
    && IsDigit(t[0]) && IsDigit(t[1])
    && t[2] == ':'
    && '0' <= t[3] <= '5' && IsDigit(t[4])
  }

  function ClockHours(t: string): nat
    requires IsClockTime(t)
  {
    10 * DigitValue(t[0]) + DigitValue(t[1])
  }

  function ClockMinutes(t: string): (m: nat)
    requires IsClockTime(t)
    ensures m < 60
  {
    10 * DigitValue(t[3]) + DigitValue(t[4])
  }

  /** On a clock time, the JS conversion yields hours * 60 + minutes. */
  lemma ClockTimeMinutes(t: string)
    requires IsClockTime(t)
    ensures Minutes(t) == Some(ClockHours(t) * 60 + ClockMinutes(t))
  {
    var hh, mm := t[..2], t[3..];
    assert t == hh + [':'] + mm;
    assert ':' !in hh by {
      assert hh[0] == t[0] && hh[1] == t[1];
    }
    assert ':' !in mm by {
      assert mm[0] == t[3] && mm[1] == t[4];
    }
    SplitAt(hh, ':', mm);
    SplitNoSeparator(mm, ':');
    assert Split(t, ':') == [hh, mm];
    TwoDigitValue(hh);
    TwoDigitValue(mm);
  }

  /** String order on clock times compares the four digits in turn; the colons always agree. */
  lemma ClockLex(a: string, b: string)
    requires IsClockTime(a) && IsClockTime(b)
    ensures LexLess(a, b) <==>
      || a[0] < b[0]
      || (a[0] == b[0] && a[1] < b[1])
      || (a[..2] == b[..2] && a[3] < b[3])
      || (a[..2] == b[..2] && a[3] == b[3] && a[4] < b[4])
  {
    var a1, b1 := a[1..], b[1..];
    var a2, b2 := a1[1..], b1[1..];
    var a3, b3 := a2[1..], b2[1..];
    var a4, b4 := a3[1..], b3[1..];
    assert a4[1..] == [] && b4[1..] == [];
    assert LexLess(a4, b4) <==> a4[0] < b4[0];
    assert LexLess(a3, b3) <==> a3[0] < b3[0] || (a3[0] == b3[0] && LexLess(a4, b4));
    assert a2[0] == ':' == b2[0];
    assert LexLess(a2, b2) == LexLess(a3, b3);
    assert LexLess(a1, b1) <==> a1[0] < b1[0] || (a1[0] == b1[0] && LexLess(a2, b2));
    assert LexLess(a, b) <==> a[0] < b[0] || (a[0] == b[0] && LexLess(a1, b1));
    assert a[..2] == [a[0], a[1]] && b[..2] == [b[0], b[1]];
  }

  /** Two-digit numerals are ordered as their digits: tens first, then units. */
  lemma TwoDigitOrder(x0: char, x1: char, y0: char, y1: char)
    requires IsDigit(x0) && IsDigit(x1) && IsDigit(y0) && IsDigit(y1)
    ensures 10 * DigitValue(x0) + DigitValue(x1) < 10 * DigitValue(y0) + DigitValue(y1) <==>
      x0 < y0 || (x0 == y0 && x1 < y1)
    ensures 10 * DigitValue(x0) + DigitValue(x1) == 10 * DigitValue(y0) + DigitValue(y1) <==>
      x0 == y0 && x1 == y1
  {
  }

  /** With minutes below 60, hours * 60 + minutes orders by hours first, then minutes. */
  lemma HoursMinutesOrder(ha: nat, ma: nat, hb: nat, mb: nat)
    requires ma < 60 && mb < 60
    ensures ha * 60 + ma < hb * 60 + mb <==> ha < hb || (ha == hb && ma < mb)
  {
    if ha < hb {
      assert ha * 60 + 60 <= hb * 60;
    } else if hb < ha {
      assert hb * 60 + 60 <= ha * 60;
    }
  }

  /** On clock times, string order is the order of minutes since midnight. */
  lemma ClockOrder(a: string, b: string)
    requires IsClockTime(a) && IsClockTime(b)
    ensures Minutes(a).Some? && Minutes(b).Some?
    ensures LexLess(a, b) <==> Minutes(a).value < Minutes(b).value
  {
    ClockTimeMinutes(a);
    ClockTimeMinutes(b);
    ClockLex(a, b);
    TwoDigitOrder(a[0], a[1], b[0], b[1]);
    TwoDigitOrder(a[3], a[4], b[3], b[4]);
    HoursMinutesOrder(ClockHours(a), ClockMinutes(a), ClockHours(b), ClockMinutes(b));
    assert a[..2] == [a[0], a[1]] && b[..2] == [b[0], b[1]];
  }

  /** `!(t < "08:00" || t > "15:00")`: the service window, compared as strings. */
  predicate InServiceHours(t: string) {
    !LexLess(t, Opening) && !LexLess(Closing, t)
  }

  /** For clock times, the string window is exactly 08:00 to 15:00 inclusive in minutes. */
  lemma ServiceHoursOnClockTimes(t: string)
    requires IsClockTime(t)
    ensures Minutes(t).Some?
    ensures InServiceHours(t) <==> 8 * 60 <= Minutes(t).value <= 15 * 60
  {
    assert IsClockTime(Opening) && IsClockTime(Closing);
    ClockOrder(t, Opening);
    ClockOrder(Closing, t);
    ClockTimeMinutes(Opening);
    ClockTimeMinutes(Closing);
  }

  /**
   * The string window also admits strings that are no time at all: "1" lies
   * between "08:00" and "15:00" as a string, and converts to NaN.
   */
  lemma ServiceHoursAdmitsNonTimes()
    ensures InServiceHours("1") && Minutes("1").None?
  {
    assert Split("1", ':') == ["1"] by {
      SplitNoSeparator("1", ':');
    }
  }
}

=== FILE: exact_availability.dfy ===
/**
 * The `/api/booking/check-availability` handler
 * (app/api/booking/check-availability/route.ts), which the booking form
 * consults before submitting. It treats a slot as taken only when a booking
 * has the same date and the identical time string, at any branch, which is
 * weaker than the one-hour buffer the submit path enforces.
 */
module ExactAvailability {
  import opened Wrappers
  import opened Clock
  import opened Bookings
  import opened Validation
  import BookingRoute

  datatype ExactReply =
    | ExactAvailable(available: bool)   // `{ available }`, status 200
    | ExactError(message: string)       // `{ error: error.message }`, status 500

  function ExactStatus(r: ExactReply): nat {
    match r
    case ExactAvailable(_) => 200
    case ExactError(_) => 500
  }

  /** `.eq('date', date).eq('time', time)` */
  function AtDateTime(store: Store, date: string, time: string): Store {
    Filter(store, (b: Booking) => b.date == date && b.time == time)
  }

  /** POST /api/booking/check-availability: only `date` and `time` are read from the body. */
  function CheckAvailability(body: Body, store: Store, queryError: Option<string>): (r: ExactReply)
    ensures queryError.Some? ==> r == ExactError(queryError.value) && ExactStatus(r) == 500
    ensures queryError.None? ==> r.ExactAvailable? && ExactStatus(r) == 200
    ensures r.ExactAvailable? ==>
      (r.available <==> forall b :: b in store ==> !(b.date == Field(body, "date") && b.time == Field(body, "time")))
  {
    if queryError.Some? then ExactError(queryError.value)
    else
      var rows := AtDateTime(store, Field(body, "date"), Field(body, "time"));
      if |rows| == 0 then
        assert forall b :: b in store ==> multiset(store)[b] > 0;
        ExactAvailable(true)
      else
        assert multiset(rows)[rows[0]] > 0;
        ExactAvailable(false)
  }

  /** Two bodies that agree on `date` and `time` get the same answer, whatever their location. */
  lemma LocationPlaysNoPart(body1: Body, body2: Body, store: Store, queryError: Option<string>)
    requires Field(body1, "date") == Field(body2, "date") && Field(body1, "time") == Field(body2, "time")
    ensures CheckAvailability(body1, store, queryError) == CheckAvailability(body2, store, queryError)
  {
  }

  /**
   * At a single branch, a time that keeps the buffer is also reported free by
   * the exact-match check: a booking at the identical time would be 0 minutes away.
   */
  lemma BufferFreeImpliesExactFree(body: Body, store: Store)
    requires Minutes(Field(body, "time")).Some?
    requires forall b :: b in store ==> b.location == Field(body, "location")
    requires SlotFree(store, Field(body, "date"), Field(body, "location"), Minutes(Field(body, "time")))
    ensures CheckAvailability(body, store, None) == ExactAvailable(true)
  {
    var date, time, location := Field(body, "date"), Field(body, "time"), Field(body, "location");
    SlotFreeIff(store, date, location, Minutes(time));
    forall b | b in store ensures !(b.date == date && b.time == time) {
      var i :| 0 <= i < |store| && store[i] == b;
    }
  }

  /**
   * The gap: a time within the buffer of a booking at the same branch, but
   * not at its identical time, is reported available by the exact-match
   * check and taken by the submit path's availability mode.
   */
  lemma ExactCheckMissesBufferConflict(body: Body, store: Store, today: string, calendar: Calendar,
                                       newId: string, now: string)
    requires BookingRoute.IsAvailabilityCheck(body)
    requires exists i :: 0 <= i < |store| && SameSlotDay(store[i], Field(body, "date"), Field(body, "location"))
               && Conflicts(Minutes(Field(body, "time")), Minutes(store[i].time))
    requires forall b :: b in store ==> b.time != Field(body, "time")
    ensures CheckAvailability(body, store, None) == ExactAvailable(true)
    ensures BookingRoute.Post(body, store, today, calendar, BookingRoute.Backend(None, None), newId, now).outcome
              == BookingRoute.Availability(false)
  {
    BookingRoute.AvailabilityModeIsReadOnly(body, store, today, calendar, BookingRoute.Backend(None, None), newId, now);
  }

  /** Such a time exists: 10:30 is within the buffer of 10:00 and is not the same string. */
  lemma HalfHourIsWithinBuffer()
    ensures "10:30" != "10:00" && Conflicts(Minutes("10:30"), Minutes("10:00"))
  {
    assert IsClockTime("10:00") && IsClockTime("10:30");
    ClockTimeMinutes("10:00");
    ClockTimeMinutes("10:30");
  }

  /**
   * The other side of the gap: a booking at another branch at the identical
   * time makes the exact-match check report the slot taken, while the buffer
   * rule, which is per branch, finds it free.
   */
  lemma ExactCheckBlocksOtherBranch(body: Body, store: Store)
    requires exists b :: b in store && b.date == Field(body, "date") && b.time == Field(body, "time")
    requires forall b :: b in store ==> b.location != Field(body, "location")
    ensures CheckAvailability(body, store, None) == ExactAvailable(false)
    ensures SlotFree(store, Field(body, "date"), Field(body, "location"), Minutes(Field(body, "time")))
  {
    SlotFreeIff(store, Field(body, "date"), Field(body, "location"), Minutes(Field(body, "time")));
  }
}

=== FILE: reviews.dfy ===
/**
 * The classification counter of GET /api/reviews (app/api/reviews/route.ts):
 * a fold over the `classification` column that counts, case-insensitively,
 * the labels `positif`, `netral` and `negatif` and ignores every other label.
 */
module Reviews {
  import opened Wrappers
  import opened Text

  datatype Classification = Positif | Netral | Negatif

  /** The response body `{ positif, netral, negatif }`. */
  datatype Counts = Counts(positif: nat, netral: nat, negatif: nat)

  const Zero: Counts := Counts(0, 0, 0)

  /** `tag.toLowerCase()` looked up among the three own keys of `counts`. */
  function Classify(tag: string): Option<Classification> {
    var key := Lower(tag);
    if key == "positif" then Some(Positif)
    else if key == "netral" then Some(Netral)
    else if key == "negatif" then Some(Negatif)
    else None
  }

  /** `counts[cls]++` when `cls in counts`. */
  function Bump(c: Counts, k: Option<Classification>): Counts {
    match k
    case None => c
    case Some(Positif) => c.(positif := c.positif + 1)
    case Some(Netral) => c.(netral := c.netral + 1)
    case Some(Negatif) => c.(negatif := c.negatif + 1)
  }

  /** The number of labels that classify as `k`: the reference the counter is measured against. */
  function CountOf(labels: seq<string>, k: Classification): (n: nat)
    ensures n <= |labels|
  {
    if |labels| == 0 then 0
    else CountOf(labels[..|labels| - 1], k) + (if Classify(labels[|labels| - 1]) == Some(k) then 1 else 0)
  }

  function Tally(labels: seq<string>): Counts {
    Counts(CountOf(labels, Positif), CountOf(labels, Netral), CountOf(labels, Negatif))
  }

  function Total(c: Counts): nat {
    c.positif + c.netral + c.negatif
  }

  /** `data.forEach(review => ...)`: all counters start at 0 and each row bumps at most one. */
  method CountClassifications(labels: seq<string>) returns (counts: Counts)
    ensures counts == Counted(labels)
    ensures counts == Tally(labels)
  {
    counts := Zero;
    var i := 0;
    while i < |labels|
      invariant 0 <= i <= |labels|
      invariant counts == Counted(labels[..i])
    {
      assert labels[..i + 1][..i] == labels[..i];
      counts := Bump(counts, Classify(labels[i]));
      i := i + 1;
    }
    assert labels[..i] == labels;
    CountedIsTally(labels);
  }

  /** One more row bumps exactly the counter its label names, or none. */
  lemma TallySnoc(labels: seq<string>, tag: string)
    ensures Tally(labels + [tag]) == Bump(Tally(labels), Classify(tag))
  {
    assert (labels + [tag])[..|labels|] == labels;
  }

  /** Counts of a concatenation add up. */
  lemma {:induction false} CountOfAppend(a: seq<string>, b: seq<string>, k: Classification)
    ensures CountOf(a + b, k) == CountOf(a, k) + CountOf(b, k)
    decreases |b|
  {
    if |b| > 0 {
      var b' := b[..|b| - 1];
      assert (a + b)[..|a + b| - 1] == a + b';
      assert (a + b)[|a + b| - 1] == b[|b| - 1];
      CountOfAppend(a, b', k);
    } else {
      assert a + b == a;
    }
  }

  /** Counts of a one-row sequence. */
  lemma CountOfSingle(tag: string, k: Classification)
    ensures CountOf([tag], k) == if Classify(tag) == Some(k) then 1 else 0
  {
    assert [tag][..0] == [];
  }

  /** Taking one row out of the middle takes its contribution out of the count. */
  lemma CountOfRemove(b: seq<string>, i: nat, k: Classification)
    requires i < |b|
    ensures CountOf(b, k) == CountOf(b[..i] + b[i + 1..], k) + (if Classify(b[i]) == Some(k) then 1 else 0)
  {
    assert b == (b[..i] + [b[i]]) + b[i + 1..];
    CountOfAppend(b[..i] + [b[i]], b[i + 1..], k);
    CountOfAppend(b[..i], [b[i]], k);
    CountOfAppend(b[..i], b[i + 1..], k);
    CountOfSingle(b[i], k);
  }

  /** Taking one row out of the middle takes one copy out of the multiset. */
  lemma MultisetRemove(b: seq<string>, i: nat)
    requires i < |b|
    ensures multiset(b[..i] + b[i + 1..]) == multiset(b) - multiset{b[i]}
  {
    assert b == b[..i] + [b[i]] + b[i + 1..];
    assert multiset(b) == multiset(b[..i]) + multiset{b[i]} + multiset(b[i + 1..]);
  }

  /** The first row of `a` sits somewhere in any rearrangement `b`; the rest match up. */
  lemma MatchFirst(a: seq<string>, b: seq<string>) returns (i: nat)
    requires |a| > 0 && multiset(a) == multiset(b)
    ensures i < |b| && b[i] == a[0]
    ensures multiset(a[1..]) == multiset(b[..i] + b[i + 1..])
  {
    assert a[0] in multiset(b);
    i :| 0 <= i < |b| && b[i] == a[0];
    MultisetRemove(a, 0);
    MultisetRemove(b, i);
    assert a[..0] + a[1..] == a[1..];
  }

  /** Each count is a function of the multiset of labels. */
  lemma {:induction false} CountOfIgnoresOrder(a: seq<string>, b: seq<string>, k: Classification)
    requires multiset(a) == multiset(b)
    ensures CountOf(a, k) == CountOf(b, k)
    decreases |a|
  {
    if |a| == 0 {
      assert |b| == |multiset(b)| == 0;
    } else {
      var i := MatchFirst(a, b);
      CountOfIgnoresOrder(a[1..], b[..i] + b[i + 1..], k);
      CountOfRemove(a, 0, k);
      assert a[..0] + a[1..] == a[1..];
      CountOfRemove(b, i, k);
    }
  }

  /** The counts do not depend on the order of the rows. */
  lemma TallyIgnoresOrder(a: seq<string>, b: seq<string>)
    requires multiset(a) == multiset(b)
    ensures Tally(a) == Tally(b)
  {
    CountOfIgnoresOrder(a, b, Positif);
    CountOfIgnoresOrder(a, b, Netral);
    CountOfIgnoresOrder(a, b, Negatif);
  }

  /** Labels outside the three are ignored, so the three counts sum to at most the number of rows. */
  lemma {:induction false} TallyAtMostRows(labels: seq<string>)
    ensures Total(Tally(labels)) <= |labels|
    decreases |labels|
  {
    if |labels| > 0 {
      var init := labels[..|labels| - 1];
      TallyAtMostRows(init);
      assert labels == init + [labels[|labels| - 1]];
      TallySnoc(init, labels[|labels| - 1]);
    }
  }

  /** Every row counts exactly when its label is one of the three, case aside. */
  lemma {:induction false} TallyCountsKnownLabels(labels: seq<string>)
    ensures Total(Tally(labels)) == |labels| <==> forall i :: 0 <= i < |labels| ==> Classify(labels[i]).Some?
    decreases |labels|
  {
    if |labels| > 0 {
      var init := labels[..|labels| - 1];
      var last := labels[|labels| - 1];
      TallyCountsKnownLabels(init);
      TallyAtMostRows(init);
      assert labels == init + [last];
      TallySnoc(init, last);
      assert forall i :: 0 <= i < |init| ==> init[i] == labels[i];
    }
  }

  /** Matching ignores case: a label and its lower-cased form classify alike. */
  lemma ClassifyIgnoresCase(tag: string)
    ensures Classify(tag) == Classify(Lower(tag))
  {
    LowerIdempotent(tag);
  }

  lemma UpperCaseLabelsCount()
    ensures Classify("POSITIF") == Classify("positif") == Some(Positif)
    ensures Classify("Netral") == Some(Netral) && Classify("NEGATIF") == Some(Negatif)
  {
    assert Lower("POSITIF") == "positif";
    assert Lower("positif") == "positif";
    assert Lower("Netral") == "netral";
    assert Lower("NEGATIF") == "negatif";
  }

  /** The handler's `forEach` over the rows in order, each one bumping the counter it names. */
  function Counted(labels: seq<string>): Counts {
    if |labels| == 0 then Zero
    else Bump(Counted(labels[..|labels| - 1]), Classify(labels[|labels| - 1]))
  }

  /** Folding the rows in order yields exactly the per-label counts. */
  lemma {:induction false} CountedIsTally(labels: seq<string>)
    ensures Counted(labels) == Tally(labels)
    decreases |labels|
  {
    if |labels| == 0 {
      assert Tally(labels) == Zero;
    } else {
      var init := labels[..|labels| - 1];
      CountedIsTally(init);
      assert labels == init + [labels[|labels| - 1]];
      TallySnoc(init, labels[|labels| - 1]);
    }
  }

  datatype ReviewsReply =
    | CountsReply(counts: Counts)   // status 200
    | ReviewsError(message: string) // status 500

  function ReviewsStatus(r: ReviewsReply): nat {
    match r
    case CountsReply(_) => 200
    case ReviewsError(_) => 500
  }

  /** The classification column, when no row holds a null classification. */
  function Labels(rows: seq<Option<string>>): (r: Option<seq<string>>)
    ensures r.Some? <==> forall i :: 0 <= i < |rows| ==> rows[i].Some?
    ensures r.Some? ==> |r.value| == |rows| && forall i :: 0 <= i < |rows| ==> r.value[i] == rows[i].value
  {
    if |rows| == 0 then Some([])
    else
      match (rows[0], Labels(rows[1..]))
      case (Some(l), Some(ls)) => Some([l] + ls)
      case _ => None
  }

  /**
   * GET /api/reviews. A query error is reported with its message, null data
   * counts nothing, and a null classification throws in `toLowerCase`, which
   * the handler turns into a 500.
   */
  function GetReviews(queryError: Option<string>, data: Option<seq<Option<string>>>): (r: ReviewsReply)
    ensures queryError.Some? ==> r == ReviewsError(queryError.value)
    ensures queryError.None? && data.None? ==> r == CountsReply(Zero)
    ensures queryError.None? && data.Some? && Labels(data.value).Some? ==>
      r == CountsReply(Tally(Labels(data.value).value))
    ensures queryError.None? && data.Some? && Labels(data.value).None? ==> ReviewsStatus(r) == 500
    ensures r.CountsReply? && data.Some? ==> Total(r.counts) <= |data.value|
  {
    if queryError.Some? then ReviewsError(queryError.value)
    else if data.None? then CountsReply(Zero)
    else
      match Labels(data.value)
      case None => ReviewsError("Internal server error")
      case Some(labels) =>
        CountedIsTally(labels);
        TallyAtMostRows(labels);
        CountsReply(Counted(labels))
  }
}

=== FILE: text.dfy ===
/**
 * The JavaScript string operations the booking rules lean on: digit tests,
 * `Number` on a digit string, `split`, `toLowerCase` and the relational
 * operators `<` / `>` on strings, which compare code units lexicographically.
 */
module Text {

  predicate IsDigit(c: char) {
    '0' <= c <= '9'
  }

  predicate AllDigits(s: string) {
    forall i :: 0 <= i < |s| ==> IsDigit(s[i])
  }

  function DigitValue(c: char): (d: nat)
    requires IsDigit(c)
    ensures d <= 9
  {
    (c as int) - ('0' as int)
  }

  /** The value of a decimal numeral; like JS `Number("")`, the empty numeral is 0. */
  function DecimalValue(s: string): nat
    requires AllDigits(s)
  {
    if |s| == 0 then 0 else 10 * DecimalValue(s[..|s| - 1]) + DigitValue(s[|s| - 1])
  }

  /** A two-digit numeral "d0d1" denotes 10*d0 + d1. */
  lemma TwoDigitValue(s: string)
    requires |s| == 2 && AllDigits(s)
    ensures DecimalValue(s) == 10 * DigitValue(s[0]) + DigitValue(s[1])
  {
    var head := s[..1];
    assert s[..|s| - 1] == head;
    assert head[..|head| - 1] == [];
    assert DecimalValue(head) == DigitValue(s[0]);
  }

  /** JS `a < b` on strings: lexicographic, with a proper prefix before its extensions. */
  predicate LexLess(a: string, b: string)
    decreases |a|
  {
    if |b| == 0 then false
    else if |a| == 0 then true
    else if a[0] != b[0] then a[0] < b[0]
    else LexLess(a[1..], b[1..])
  }

  lemma {:induction false} LexLessIrreflexive(a: string)
    ensures !LexLess(a, a)
    decreases |a|
  {
    if |a| > 0 {
      LexLessIrreflexive(a[1..]);
    }
  }

  /** Exactly one of a < b, a == b, b < a holds. */
  lemma {:induction false} LexLessTrichotomy(a: string, b: string)
    ensures LexLess(a, b) || a == b || LexLess(b, a)
    ensures !(LexLess(a, b) && LexLess(b, a))
    decreases |a|
  {
    if |a| > 0 && |b| > 0 && a[0] == b[0] {
      LexLessTrichotomy(a[1..], b[1..]);
      if a[1..] == b[1..] {
        assert a == [a[0]] + a[1..] && b == [b[0]] + b[1..];
      }
    }
  }

  /** JS `s.split(sep)`: the maximal separator-free pieces, in order; never empty. */
  function Split(s: string, sep: char): (pieces: seq<string>)
    ensures |pieces| >= 1
    ensures forall k :: 0 <= k < |pieces| ==> sep !in pieces[k]
    decreases |s|
  {
    if |s| == 0 then [""]
    else
      var rest := Split(s[1..], sep);
      if s[0] == sep then [""] + rest
      else [[s[0]] + rest[0]] + rest[1..]
  }

  /** JS `pieces.join(sep)`. */
  function Join(pieces: seq<string>, sep: char): string
    requires |pieces| >= 1
    decreases |pieces|
  {
    if |pieces| == 1 then pieces[0] else pieces[0] + [sep] + Join(pieces[1..], sep)
  }

  /** Splitting loses nothing: joining the pieces back with the separator gives the input. */
  lemma {:induction false} SplitJoin(s: string, sep: char)
    ensures Join(Split(s, sep), sep) == s
    decreases |s|
  {
    if |s| > 0 {
      var rest := Split(s[1..], sep);
      SplitJoin(s[1..], sep);
      if s[0] == sep {
        assert Split(s, sep)[1..] == rest;
      } else {
        var p := Split(s, sep);
        assert p[0] == [s[0]] + rest[0];
        if |rest| == 1 {
          assert Join(p, sep) == [s[0]] + rest[0];
        } else {
          assert p[1..] == rest[1..];
          assert Join(p, sep) == [s[0]] + rest[0] + [sep] + Join(rest[1..], sep);
        }
        assert s == [s[0]] + s[1..];
      }
    }
  }

  /** Splitting a string with no separator yields that string alone. */
  lemma {:induction false} SplitNoSeparator(s: string, sep: char)
    requires sep !in s
    ensures Split(s, sep) == [s]
    decreases |s|
  {
    if |s| > 0 {
      assert sep !in s[1..] by {
        forall k | 0 <= k < |s[1..]| ensures s[1..][k] != sep {
          assert s[1..][k] == s[k + 1];
        }
      }
      SplitNoSeparator(s[1..], sep);
      assert [s[0]] + s[1..] == s;
    }
  }

  /** Splitting at a separator that follows a separator-free prefix. */
  lemma {:induction false} SplitAt(a: string, sep: char, b: string)
    requires sep !in a
    ensures Split(a + [sep] + b, sep) == [a] + Split(b, sep)
    decreases |a|
  {
    var s := a + [sep] + b;
    if |a| == 0 {
      assert s[1..] == b;
    } else {
      assert s[1..] == a[1..] + [sep] + b;
      assert sep !in a[1..] by {
        forall k | 0 <= k < |a[1..]| ensures a[1..][k] != sep {
          assert a[1..][k] == a[k + 1];
        }
      }
      SplitAt(a[1..], sep, b);
      assert [a[0]] + a[1..] == a;
    }
  }

  /** JS `toLowerCase` restricted to the ASCII letters A-Z; every other character is kept. */
  function LowerChar(c: char): char {
    if 'A' <= c <= 'Z' then (c as int + 32) as char else c
  }

  /** Lower-casing leaves no capital behind, turns each capital into its own small letter and keeps the rest. */
  function Lower(s: string): (l: string)
    ensures |l| == |s|
    ensures forall i :: 0 <= i < |l| ==> !('A' <= l[i] <= 'Z')
    ensures forall i :: 0 <= i < |s| && 'A' <= s[i] <= 'Z' ==> 'a' <= l[i] <= 'z'
    ensures forall i :: 0 <= i < |s| && 'A' <= s[i] <= 'Z' ==> l[i] as int - 'a' as int == s[i] as int - 'A' as int
    ensures forall i :: 0 <= i < |s| && !('A' <= s[i] <= 'Z') ==> l[i] == s[i]
  {
    seq(|s|, i requires 0 <= i < |s| => LowerChar(s[i]))
  }

  /** Lower-casing twice is lower-casing once. */
  lemma LowerIdempotent(s: string)
    ensures Lower(Lower(s)) == Lower(s)
  {
  }
}

=== FILE: validation.dfy ===
/**
 * The server's validation chain for a booking submission
 * (app/api/booking/route.ts, validations 1 to 7): seven checks in a fixed
 * order, the first failing one deciding the rejection.
 */
module Validation {
  import opened Wrappers
  import opened Text
  import opened Clock

  /** A decoded JSON request body; every value is taken as its string form. */
  type Body = map<string, string>

  /** `body[key]`, with an absent key read as the falsy empty string. */
  function Field(body: Body, key: string): string {
    if key in body then body[key] else ""
  }

  /** JS truthiness of a string field: present and non-empty. */
  predicate Truthy(body: Body, key: string) {
    Field(body, key) != ""
  }

  /** `Date.prototype.getDay()`: 0 is Sunday, 6 is Saturday. */
  type Weekday = d: int | 0 <= d <= 6

  /**
   * How the runtime reads a date string with `new Date(date)`: None when the
   * result is an invalid date (`getTime()` is NaN), otherwise its weekday.
   */
  type Calendar = string -> Option<Weekday>

  predicate IsWeekendDay(calendar: Calendar, date: string) {
    calendar(date) == Some(0) || calendar(date) == Some(6)
  }

  /** `/^[0-9]{10,15}$/.test(phone)` */
  predicate PhoneOk(phone: string) {
    10 <= |phone| <= 15 && AllDigits(phone)
  }

  /** `!(isNaN(Number(age)) || Number(age) <= 0)` for a digit-string age. */
  predicate AgeOk(age: string) {
    NumberOf(age).Some? && NumberOf(age).value > 0
  }

  /** Validation 1: all six fields are present and truthy. */
  predicate Complete(body: Body) {
    && Truthy(body, "name") && Truthy(body, "phone") && Truthy(body, "age")
    && Truthy(body, "date") && Truthy(body, "time") && Truthy(body, "location")
  }

  /** The seven checks, named after the rejection each one produces. */
  datatype Rejection =
    | MissingFields   // 'Semua field harus diisi'
    | BadPhone        // 'Format nomor HP tidak valid'
    | BadAge          // 'Umur harus berupa angka positif'
    | BadDate         // 'Format tanggal tidak valid'
    | PastDate        // 'Tidak bisa memilih tanggal yang sudah lewat'
    | Weekend         // 'Hanya bisa memilih hari kerja (Senin-Jumat)'
    | OutsideHours    // 'Waktu harus antara 08:00 hingga 15:00'

  /** The position of each check in the chain. */
  function Rank(c: Rejection): nat {
    match c
    case MissingFields => 0
    case BadPhone => 1
    case BadAge => 2
    case BadDate => 3
    case PastDate => 4
    case Weekend => 5
    case OutsideHours => 6
  }

  /** Check `c`, evaluated on its own, rejects the body. `today` is the UTC "YYYY-MM-DD" of the request. */
  predicate Fails(c: Rejection, body: Body, today: string, calendar: Calendar) {
    match c
    case MissingFields => !Complete(body)
    case BadPhone => !PhoneOk(Field(body, "phone"))
    case BadAge => !AgeOk(Field(body, "age"))
    case BadDate => calendar(Field(body, "date")).None?
    case PastDate => LexLess(Field(body, "date"), today)
    case Weekend => IsWeekendDay(calendar, Field(body, "date"))
    case OutsideHours => !InServiceHours(Field(body, "time"))
  }

  /** The destructured fields of a submission that passed every check. */
  datatype Submission = Submission(
    name: string,
    phone: string,
    age: string,
    date: string,
    time: string,
    location: string)

  /** Validations 1 to 7 of the submit path, short-circuiting at the first failure. */
  function Validate(body: Body, today: string, calendar: Calendar): (v: Result<Submission, Rejection>)
    ensures v.Ok? ==> v.value == Submission(Field(body, "name"), Field(body, "phone"), Field(body, "age"),
                                            Field(body, "date"), Field(body, "time"), Field(body, "location"))
  {
    var date := Field(body, "date");
    if !Complete(body) then Err(MissingFields)
    else if !PhoneOk(Field(body, "phone")) then Err(BadPhone)
    else if !AgeOk(Field(body, "age")) then Err(BadAge)
    else if calendar(date).None? then Err(BadDate)
    else if LexLess(date, today) then Err(PastDate)
    else if calendar(date).value == 0 || calendar(date).value == 6 then Err(Weekend)
    else if LexLess(Field(body, "time"), Opening) || LexLess(Closing, Field(body, "time")) then Err(OutsideHours)
    else Ok(Submission(Field(body, "name"), Field(body, "phone"), Field(body, "age"),
                       date, Field(body, "time"), Field(body, "location")))
  }

  /** The chain rejects with `c` exactly when check `c` fails and every earlier check passes. */
  lemma ValidateFirstFailure(body: Body, today: string, calendar: Calendar, c: Rejection)
    ensures Validate(body, today, calendar) == Err(c) <==>
      Fails(c, body, today, calendar) &&
      forall e :: Rank(e) < Rank(c) ==> !Fails(e, body, today, calendar)
  {
    var v := Validate(body, today, calendar);
    if v == Err(c) {
      forall e | Rank(e) < Rank(c) ensures !Fails(e, body, today, calendar) {
        match e
        case MissingFields =>
        case BadPhone =>
        case BadAge =>
        case BadDate =>
        case PastDate =>
        case Weekend =>
        case OutsideHours =>
      }
    } else if Fails(c, body, today, calendar) {
      assert Rank(MissingFields) == 0 && Rank(BadPhone) == 1 && Rank(BadAge) == 2 && Rank(BadDate) == 3;
      assert Rank(PastDate) == 4 && Rank(Weekend) == 5 && Rank(OutsideHours) == 6;
    }
  }

  /** The chain accepts exactly when no check fails. */
  lemma ValidateAccepts(body: Body, today: string, calendar: Calendar)
    ensures Validate(body, today, calendar).Ok? <==> forall c :: !Fails(c, body, today, calendar)
  {
    if Validate(body, today, calendar).Ok? {
      forall c ensures !Fails(c, body, today, calendar) {
        match c
        case MissingFields =>
        case BadPhone =>
        case BadAge =>
        case BadDate =>
        case PastDate =>
        case Weekend =>
        case OutsideHours =>
      }
    } else {
      var e := Validate(body, today, calendar).error;
      ValidateFirstFailure(body, today, calendar, e);
    }
  }

  /** `date < today` lets through exactly the dates equal to today or after it, in string order. */
  lemma PastDateIff(body: Body, today: string, calendar: Calendar)
    ensures !Fails(PastDate, body, today, calendar) <==>
      Field(body, "date") == today || LexLess(today, Field(body, "date"))
  {
    LexLessIrreflexive(today);
    LexLessTrichotomy(Field(body, "date"), today);
  }
}

=== FILE: wrappers.dfy ===
/** Small failure-carrying datatypes shared by the booking modules. */
module Wrappers {

  /** A value that may be absent: a JS `null`, `undefined` or `NaN`. */
  datatype Option<+T> = None | Some(value: T)

  /** Either a value or the reason it could not be produced. */
  datatype Result<+R, +E> = Ok(value: R) | Err(error: E)
}
